=== FILE: README.md ===
# Sports line streamer — a Dafny model of its sequential core

The service polls one "line" feed per sport, keeps the latest value per
sport in a shared cache, and streams per-subscription deltas to gRPC
clients. This project models the sequential decisions inside that
concurrent glue and proves properties about them:

- **Sport catalog** (`sports.dfy`, module `Sports`): the closed set
  Soccer/Football/Baseball with its names (`String`), ordinals (`CalExpr`)
  and the parser `NewSport`. `NewSport` returns `Option<Sport>`: `None` stands
  for the nil interface that an unknown name yields.
- **Cache** (`cache.dfy`, module `Cache`): the store behind `pkg/store` is
  not part of this model. It is modelled as a class holding a
  `map<string, int>`, with per-key failure oracles for `Set` and
  `GetLastValueByKey` and a fixed outcome for `Ping`. A failed read, or a read
  of a missing key, returns the zero value.
- **Ingestion** (`workers.dfy`, module `Workers`): `New` builds one worker per
  sport, with URL `base + "/" + name` and that sport's configured interval.
  `RunWorkers` drains the merged rate stream into the cache. The merged channel
  is a finite sequence of arrivals, and each arrival records whether the stop
  signal was ready when it was received. The loop is proved against a
  reference function `Drain`. Lemmas about `Drain` give last-write-wins, the
  write count, stop-on-done and stop-on-first-failure.
- **Subscriptions** (`rpcserver.dfy`, module `RpcServer`): `compareSlice`,
  `buildResponse`, the projection of a tick's entries to the wire map, and the
  `Subscription` class, whose `Tick` sends the deltas and replaces the
  baseline. Go's map iteration order is unspecified. `BuildResponse` therefore
  collects the baseline's keys with a nondeterministic choice (`:|`), returns
  the order it picked, and every lemma holds for any ordering of the baseline's
  keys (`IsKeyOrder`).
- **HTTP decisions** (`httpserver.dfy`, module `HttpServer`): the log level of
  a completed request and the readiness reply of the health check.

Values are `int` where the source uses `float32`.

Two consequences of the code are worth stating:

- Compounding depends on map iteration order. The code compares the
  baseline's keys, in map iteration order, with the request's list
  (`internal/rpcserver/rpcserver.go:133-137,146`). With two or more sports,
  whether a tick compounds therefore depends on that order.
  `IterationOrderMatters` shows both outcomes for the same baseline.
  `SecondTickDelta` and `SingleSportAlwaysCompounds` give conditions under
  which compounding is certain.
- A subscription's initial baseline is always empty. The map that the request
  reader hands to each task (`rpcserver.go:69,81-84,101,120`) is never written,
  because each task reassigns only its own copy (`rpcserver.go:116-118`).

Two definitions serve as the model's interfaces and state no promise of their
own. `Cache.ValueOf` is the abstract store's read: the stored value, or zero
when the key is missing or the read fails. `HttpServer.RecordedCode` is the
status the response-writer wrapper records: the code the handler wrote, or
200 when it wrote none. That wrapper's `WriteHeader` is not part of this
model. `ReadFailureKeepsEntry`, `ResponseEntries` and `UnsetCodeLogsInfo`
state what follows from them.

## Model

| member | source | states |
|---|---|---|
| Sports.Name | internal/model/sport.go:23-33 | every sport's name is a non-empty string with no `/`, usable as a single URL path segment |
| Sports.CalExpr | internal/model/sport.go:35-45 | the ordinal is 0, 1 or 2, and the catalog at that position is the sport itself (so the ordinals follow the underlying values) |
| Sports.NewSport | internal/model/sport.go:48-60 | parsing succeeds only with a sport whose name is exactly the input; it yields None exactly when no sport has that name |
| Sports.NameInjective | internal/model/sport.go:23-33 | two sports with the same name are the same sport |
| Sports.NameRoundTrip | internal/model/sport.go:23-60 | `NewSport(s.String()) == s` for every sport |
| Sports.NewSportInverse | internal/model/sport.go:48-60 | `NewSport(str)` is `Some(s)` if and only if `str` is the name of `s` |
| Sports.CalExprInjective | internal/model/sport.go:35-45 | two sports with the same ordinal are the same sport |
| Cache.Store.Set | internal/workers/workers.go:129 | a write fails exactly for the failing keys; a failed write changes nothing, a successful one updates only that key |
| Cache.Store.GetLastValueByKey | internal/rpcserver/rpcserver.go:140 | the read reports an error exactly when the key is missing or failing, and otherwise returns the stored value |
| Workers.BuildWorkers | internal/workers/workers.go:35-56 | one worker per input sport, in order; worker i's URL is base, "/", name of sport i; its interval is that sport's configured interval |
| Workers.BackgroundWorkers.New | internal/workers/workers.go:29-59 | the pipeline holds exactly the worker of each given sport in order, the given cache, and a zero counter |
| Workers.WorkerUrlNamesSport | internal/workers/workers.go:48 | a worker's URL starts with the base URL and a slash, and the rest parses back to the worker's sport |
| Workers.DistinctSportsDistinctUrls | internal/workers/workers.go:48 | different sports are polled at different URLs |
| Workers.WorkerIntervalIsConfigured | internal/workers/workers.go:39-46 | a worker's interval is the Soccer, Football or Baseball interval field, chosen by its sport's ordinal |
| Workers.BackgroundWorkers.RunWorkers | internal/workers/workers.go:124-136 | the new cache, the counter increase and the returned error are exactly those of the reference drain `Drain`; the worker list is unchanged |
| Workers.DrainCharacterised | internal/workers/workers.go:124-136 | the drain writes, in order, exactly the longest prefix with no stop signal and no failing write; it returns an error exactly when it ended at a failing write; the error carries that write's key in place of the store's error text |
| Workers.ReplayUntouched | internal/workers/workers.go:129 | writing rates leaves a key that none of them names as it was |
| Workers.ReplayLastWriteWins | internal/workers/workers.go:129 | after writing rates in order, each key holds the value of the last rate written under it |
| Workers.DrainWithoutStopsLastWriteWins | internal/workers/workers.go:124-134 | with no stop signal and no failure, all rates are written, no error is returned, and each key holds its last rate's value |
| Workers.DrainWithoutStopsUntouched | internal/workers/workers.go:124-134 | with no stop signal and no failure, keys that no rate names are unchanged |
| Workers.DrainStopsOnDone | internal/workers/workers.go:125-127 | a stop signal at arrival j returns no error, counts j writes and does not write arrival j or anything after it |
| Workers.DrainStopsOnFailure | internal/workers/workers.go:129-132 | the first failing write returns an error (carrying its key in place of the store's error text); the counter grew by exactly the number of earlier writes and nothing later is written |
| RpcServer.CompareSlice | internal/rpcserver/rpcserver.go:163-173 | true exactly when both lists have the same length and agree position by position, i.e. are equal (so unequal lengths give false and a list equals itself) |
| RpcServer.FillEntries | internal/rpcserver/rpcserver.go:139-158 | the response loop gives every visited sport its entry and keeps every other entry |
| RpcServer.ResponseEntries | internal/rpcserver/rpcserver.go:139-158 | a tick's keys are exactly the requested sports. Each raw value is the value read. Each delta is raw minus the baseline's delta when the baseline is non-empty and its key order equals the request; otherwise the delta is raw |
| RpcServer.FirstTickDeltaIsRaw | internal/rpcserver/rpcserver.go:133-150 | with an empty baseline every delta equals its raw value |
| RpcServer.ReadFailureKeepsEntry | internal/rpcserver/rpcserver.go:139-158 | a failed read does not drop the sport: it still gets an entry, with raw value zero |
| RpcServer.CompoundingNeedsSameSports | internal/rpcserver/rpcserver.go:133-150 | compounding implies the request lists each of the baseline's sports exactly once and nothing else |
| RpcServer.DuplicateRequestShrinks | internal/rpcserver/rpcserver.go:139-158 | a request that names a sport twice yields fewer entries than the list has sports |
| RpcServer.DuplicateRequestNeverCompounds | internal/rpcserver/rpcserver.go:133-150 | a request that names a sport twice never compounds, whatever the baseline and its order: every delta equals raw |
| RpcServer.SecondTickDelta | internal/rpcserver/rpcserver.go:104-118 | for distinct sports, when the second tick iterates in request order its delta is the second raw value minus the first delta (which is the first raw value) |
| RpcServer.SingleSportAlwaysCompounds | internal/rpcserver/rpcserver.go:133-150 | a one-sport subscription with that sport as its baseline always compounds, under every iteration order |
| RpcServer.IterationOrderMatters | internal/rpcserver/rpcserver.go:133-137 | the same two-sport baseline and cache give a compounded delta under one key order and the raw value under the other |
| RpcServer.BuildResponse | internal/rpcserver/rpcserver.go:128-161 | returns a key order that lists each baseline key once, and entries equal to the reference `Response` for that order |
| RpcServer.Project | internal/rpcserver/rpcserver.go:105-108 | the wire map has exactly the entries' keys, each mapped to that entry's delta |
| RpcServer.Subscription.constructor | internal/rpcserver/rpcserver.go:69-120 | a subscription starts with an empty baseline and nothing sent |
| RpcServer.TickNanosWithoutOverflow | internal/rpcserver/rpcserver.go:103 | when the product of the interval and one second fits in 64 bits, the timer period is that product, positive exactly for positive intervals |
| RpcServer.TickNanosWraps | internal/rpcserver/rpcserver.go:95-103 | an interval of 0 (a failed parse) and the smallest 64-bit interval give period 0 and never fire; -18446744073 s wraps to a positive 709551616 ns period |
| RpcServer.Subscription.Tick | internal/rpcserver/rpcserver.go:103-118 | a tick runs only when the wrapped 64-bit timer period is positive; it computes the entries for its key order, appends a response with exactly their keys and deltas to what was sent, and the entries become the next baseline |
| HttpServer.CompletionLevel | internal/httpserver/httpserver.go:62-70 | Error exactly for codes of 500 or more, Warn exactly for 400-499, Info exactly below 400 |
| HttpServer.CompletionLevelMonotone | internal/httpserver/httpserver.go:62-70 | a higher status code is never logged at a less severe level |
| HttpServer.UnsetCodeLogsInfo | internal/httpserver/httpserver.go:59-70 | a request whose handler sets no status is logged at Info level |
| HttpServer.HealthCheck | internal/httpserver/httpserver.go:83-97 | 503 exactly when the probe fails, 200 exactly when it passes; the body is the same number as the status |
| HttpServer.HealthCheckHandler | internal/httpserver/httpserver.go:83-89 | the handler probes the cache and replies with exactly `HealthCheck` of the probe's outcome: 503 when it fails, 200 otherwise |
| HttpServer.HealthCheckLogLevel | internal/httpserver/httpserver.go:59-89 | a failed readiness probe is logged at Error level and a passing one at Info level |

## Left out

- Goroutines, channels, the mutex, the wait group, `time.Tick` and `time.Sleep` (`process`, `gen`, `getRate`, `merge`). Only the sequential step of one tick or one drain iteration is modelled. The cache is read as a snapshot during a tick, so writes from concurrent ingestion in the middle of a tick are not modelled.
- The gRPC server, listener and stream `Recv`/`Send`. A send is recorded in `Subscription.sent`; a send error is only logged in the source, so it has no effect in the model.
- The HTTP fetch and JSON decoding of feed rates. Rates arrive already decoded in the drain's input sequence.
- The store implementation (`pkg/store`) is not part of this model. It is replaced by the abstract `Cache.Store`, whose failures are fixed per key rather than varying from call to call.
- `float32` arithmetic: values and deltas are unbounded integers, so rounding and overflow are not modelled.
- `strconv.Atoi` parsing of the subscription interval: `ReqParams.updTime` is taken as given. A syntax error yields 0. An out-of-range string yields the largest or smallest 64-bit integer (`rpcserver.go:95-98`). Timers are not modelled beyond whether they fire. `time.Tick` receives `updTime` seconds as an int64 nanosecond `Duration`, which wraps in both directions (`rpcserver.go:103`). It returns nil, and the task never ticks, unless that wrapped duration is positive. `Subscription.Tick` requires exactly that (`TickNanos(rp.updTime) > 0`). So 0 and the smallest 64-bit integer never tick, while some large negative intervals wrap to a positive period and do tick.
- `Shutdown` of the workers and of the HTTP server, the router setup, the middleware's timing and the JSON encoding of the health reply. The reply body is modelled as the number that is encoded.
- The `"-"` and `-1` fall-through results of `String` and `CalExpr`: no value outside the three exported sports can be built outside the package, and the model's `Sport` is the closed three-value type.
- Workers.DrainCharacterised: the error `RunWorkers` returns carries the failing key, standing in for the store's error text that `workers.go:130` wraps. The abstract store has no error text.
- Workers.DrainStopsOnFailure: likewise, the error carries the failing key in place of the store's error text.
- Workers.BackgroundWorkers.RunWorkers: likewise, the returned `SetError` carries the failing key in place of the store's error text.
- The logger package, a thin wrapper over the logging library's level parser.

=== FILE: cache.dfy ===
/**
 * The shared key/value cache the ingestion side writes and the
 * subscription side reads. Its implementation is not part of this model:
 * it is an in-memory map with a per-key failure oracle for each operation.
 * Values are `int` where the source stores `float32`.
 */
module Cache {

  /** The value a read of `key` observes: the stored value, or the zero value when the read fails. */
  function ValueOf(data: map<string, int>, getFails: set<string>, key: string): (v: int)
  {
    if key in data && key !in getFails then data[key] else 0
  }

  class Store {
    /** The latest value per key. */
    var data: map<string, int>
    /** Keys whose `Set` reports an error (and writes nothing). */
    const setFails: set<string>
    /** Keys whose `GetLastValueByKey` reports an error. */
    const getFails: set<string>
    /** Whether the liveness probe fails. */
    const pingFails: bool

    constructor (data0: map<string, int>, setFails: set<string>, getFails: set<string>, pingFails: bool)
      ensures data == data0
      ensures this.setFails == setFails && this.getFails == getFails && this.pingFails == pingFails
    {
      data := data0;
      this.setFails := setFails;
      this.getFails := getFails;
      this.pingFails := pingFails;
    }

    /** Writes `value` under `key` unless the write fails. */
    method Set(key: string, value: int) returns (err: bool)
      modifies this
      ensures err <==> key in setFails
      ensures data == if err then old(data) else old(data)[key := value]
    {
      err := key in setFails;
      if !err {
        data := data[key := value];
      }
    }

    /** Reads the latest value of `key`; a missing key is an error too. */
    method GetLastValueByKey(key: string) returns (value: int, err: bool)
      ensures err <==> key !in data || key in getFails
      ensures !err ==> value == data[key]
      ensures value == ValueOf(data, getFails, key)
    {
      err := key !in data || key in getFails;
      value := if err then 0 else data[key];
    }

    /** Liveness probe. */
    method Ping() returns (err: bool)
      ensures err <==> pingFails
    {
      err := pingFails;
    }
  }
}

=== FILE: httpserver.dfy ===
/**
 * The two decisions of the HTTP side: the level at which the logging
 * middleware reports a completed request, and the readiness answer of
 * the health check. Routing, timing and JSON encoding are not modelled.
 */
module HttpServer {
  import opened Wrappers
  import Cache

  datatype Level = ErrorLevel | WarnLevel | InfoLevel

  const StatusOK: int := 200
  const StatusServiceUnavailable: int := 503

  /** The status code the middleware records: the one the handler wrote, or 200 when it wrote none. */
  function RecordedCode(written: Option<int>): (code: int)
  {
    match written
    case Some(c) => c
    case None => StatusOK
  }

  /** The level a completed request is logged at. */
  function CompletionLevel(code: int): (level: Level)
    ensures level == ErrorLevel <==> code >= 500
    ensures level == WarnLevel <==> 400 <= code < 500
    ensures level == InfoLevel <==> code < 400
  {
    if code >= 500 then ErrorLevel
    else if code >= 400 then WarnLevel
    else InfoLevel
  }

  /** How severe a level is, least severe first. */
  function Severity(level: Level): (rank: nat)
  {
    match level
    case InfoLevel => 0
    case WarnLevel => 1
    case ErrorLevel => 2
  }

  /** A higher status code is never logged at a less severe level. */
  lemma CompletionLevelMonotone(c1: int, c2: int)
    requires c1 <= c2
    ensures Severity(CompletionLevel(c1)) <= Severity(CompletionLevel(c2))
  {
  }

  /** A request whose handler sets no status is logged at Info level. */
  lemma UnsetCodeLogsInfo()
    ensures CompletionLevel(RecordedCode(None)) == InfoLevel
  {
  }

  /** The health check's reply: the status header and the JSON number written as body. */
  datatype Reply = Reply(status: int, body: int)

  /** 503 when the cache's liveness probe fails, 200 otherwise; the body repeats the status. */
  function HealthCheck(pingFailed: bool): (r: Reply)
    ensures r.status == r.body
    ensures r.status == StatusServiceUnavailable <==> pingFailed
    ensures r.status == StatusOK <==> !pingFailed
  {
    var status := if pingFailed then StatusServiceUnavailable else StatusOK;
    Reply(status, status)
  }

  /** The readiness handler: probes the cache and answers with the status for that outcome. */
  method HealthCheckHandler(store: Cache.Store) returns (r: Reply)
    ensures r == HealthCheck(store.pingFails)
    ensures r.status == StatusServiceUnavailable <==> store.pingFails
  {
    var err := store.Ping();
    r := HealthCheck(err);
  }

  /** A failed readiness probe is logged at Error level, a passing one at Info level. */
  lemma HealthCheckLogLevel(pingFailed: bool)
    ensures CompletionLevel(RecordedCode(Some(HealthCheck(pingFailed).status))) ==
      if pingFailed then ErrorLevel else InfoLevel
  {
  }
}

=== FILE: rpcserver.dfy ===
/**
 * The subscription side: for one subscription, each tick reads the
 * requested sports from the cache, computes a delta per sport against the
 * subscription's previous baseline, sends the deltas on the stream and
 * keeps the computed entries as the next baseline. The gRPC transport,
 * the request reader goroutine and the timers are not modelled.
 */
module RpcServer {
  import Cache

  /** The last computed pair for one sport. */
  datatype RawToDelta = RawToDelta(raw: int, delta: int)

  /** A parsed subscription request: the sports, in request order, and the interval in seconds. */
  datatype ReqParams = ReqParams(sportsToUpdate: seq<string>, updTime: int)

  /** A subscription's previous sample, per sport. */
  type Baseline = map<string, RawToDelta>

  predicate Distinct(s: seq<string>)
  {
    forall i, j :: 0 <= i < j < |s| ==> s[i] != s[j]
  }

  /** `keys` lists every key of `prev` exactly once, in some order (a map iteration order). */
  ghost predicate IsKeyOrder(keys: seq<string>, prev: Baseline)
  {
    Distinct(keys) && forall k :: k in keys <==> k in prev
  }

  /** Ordered comparison of two string slices. */
  method CompareSlice(a: seq<string>, b: seq<string>) returns (eq: bool)
    ensures eq <==> |a| == |b| && forall i :: 0 <= i < |a| ==> a[i] == b[i]
    ensures eq <==> a == b
  {
    if |a| != |b| {
      return false;
    }
    var i := 0;
    while i < |a|
      invariant 0 <= i <= |a|
      invariant forall j :: 0 <= j < i ==> a[j] == b[j]
    {
      if a[i] != b[i] {
        return false;
      }
      i := i + 1;
    }
    return true;
  }

  /** The previous delta of a sport; the zero value when the baseline has no entry for it. */
  function PrevDelta(prev: Baseline, sport: string): (delta: int)
  {
    if sport in prev then prev[sport].delta else 0
  }

  /** Whether this tick computes deltas against the baseline. */
  predicate Compounds(prev: Baseline, prevKeys: seq<string>, sports: seq<string>)
  {
    |prev| > 0 && prevKeys == sports
  }

  /** The entry of one sport, given the value read for it. */
  function Entry(raw: int, compounding: bool, prev: Baseline, sport: string): (e: RawToDelta)
  {
    RawToDelta(raw, if compounding then raw - PrevDelta(prev, sport) else raw)
  }

  /** The response loop: each sport of `todo`, in order, (over)writes its entry in `acc`. */
  function Fill(data: map<string, int>, getFails: set<string>, compounding: bool, prev: Baseline,
                todo: seq<string>, acc: Baseline): (r: Baseline)
    decreases |todo|
  {
    if todo == [] then acc
    else
      var el := todo[0];
      Fill(data, getFails, compounding, prev, todo[1..],
           acc[el := Entry(Cache.ValueOf(data, getFails, el), compounding, prev, el)])
  }

  /** The entries one tick computes, for a given iteration order of the baseline's keys. */
  function Response(data: map<string, int>, getFails: set<string>, sports: seq<string>,
                    prev: Baseline, prevKeys: seq<string>): (r: Baseline)
  {
    Fill(data, getFails, Compounds(prev, prevKeys, sports), prev, sports, map[])
  }

  /** The loop leaves entries of sports it does not visit alone and gives every visited sport its entry. */
  lemma {:induction false} FillEntries(data: map<string, int>, getFails: set<string>, compounding: bool,
                                       prev: Baseline, todo: seq<string>, acc: Baseline)
    ensures var r := Fill(data, getFails, compounding, prev, todo, acc);
      (forall s :: s in r <==> s in acc || s in todo) &&
      (forall s :: s in todo ==> r[s] == Entry(Cache.ValueOf(data, getFails, s), compounding, prev, s)) &&
      (forall s :: s in acc && s !in todo ==> r[s] == acc[s])
    decreases |todo|
  {
    if todo != [] {
      var el := todo[0];
      var acc' := acc[el := Entry(Cache.ValueOf(data, getFails, el), compounding, prev, el)];
      FillEntries(data, getFails, compounding, prev, todo[1..], acc');
      forall s ensures s in todo <==> s == el || s in todo[1..] {
        if s in todo && s != el {
          var i :| 0 <= i < |todo| && todo[i] == s;
          assert todo[1..][i - 1] == s;
        }
      }
    }
  }

  /**
   * A tick answers every requested sport and no other; each entry's raw
   * value is what the cache read returned (zero when the read failed), and
   * its delta is `raw - prev[sport].delta` when the baseline is non-empty
   * and its key order equals the request's sport list, and `raw` otherwise.
   */
  lemma ResponseEntries(data: map<string, int>, getFails: set<string>, sports: seq<string>,
                        prev: Baseline, prevKeys: seq<string>)
    requires IsKeyOrder(prevKeys, prev)
    ensures var r := Response(data, getFails, sports, prev, prevKeys);
      (forall s :: s in r <==> s in sports) &&
      (forall s :: s in sports ==>
        r[s].raw == Cache.ValueOf(data, getFails, s) &&
        (Compounds(prev, prevKeys, sports) ==> s in prev && r[s].delta == r[s].raw - prev[s].delta) &&
        (!Compounds(prev, prevKeys, sports) ==> r[s].delta == r[s].raw))
  {
    FillEntries(data, getFails, Compounds(prev, prevKeys, sports), prev, sports, map[]);
  }

  /** On a first tick (empty baseline) every delta is the raw value. */
  lemma FirstTickDeltaIsRaw(data: map<string, int>, getFails: set<string>, sports: seq<string>, prevKeys: seq<string>)
    requires IsKeyOrder(prevKeys, map[])
    ensures var r := Response(data, getFails, sports, map[], prevKeys);
      forall s :: s in r ==> r[s].delta == r[s].raw
  {
    ResponseEntries(data, getFails, sports, map[], prevKeys);
  }

  /** A failed cache read does not drop the sport: it is answered with raw value zero. */
  lemma ReadFailureKeepsEntry(data: map<string, int>, getFails: set<string>, sports: seq<string>,
                              prev: Baseline, prevKeys: seq<string>, s: string)
    requires IsKeyOrder(prevKeys, prev)
    requires s in sports && (s in getFails || s !in data)
    ensures var r := Response(data, getFails, sports, prev, prevKeys);
      s in r && r[s].raw == 0
  {
    ResponseEntries(data, getFails, sports, prev, prevKeys);
  }

  /** Compounding happens only when the request lists exactly the baseline's sports, each once. */
  lemma CompoundingNeedsSameSports(prev: Baseline, prevKeys: seq<string>, sports: seq<string>)
    requires IsKeyOrder(prevKeys, prev)
    requires Compounds(prev, prevKeys, sports)
    ensures Distinct(sports) && |sports| == |prev| > 0
    ensures forall s :: s in sports <==> s in prev
  {
    DistinctCard(prevKeys);
    assert (set s | s in prevKeys) == prev.Keys;
  }

  /** The number of distinct elements of a list is at most its length, and equal exactly when it has no duplicate. */
  lemma {:induction false} DistinctCard(s: seq<string>)
    ensures |set x | x in s| <= |s|
    ensures |set x | x in s| == |s| <==> Distinct(s)
    decreases |s|
  {
    if s != [] {
      var t := s[..|s| - 1];
      var last := s[|s| - 1];
      DistinctCard(t);
      assert s == t + [last];
      assert (set x | x in s) == (set x | x in t) + {last};
      if last in t {
        assert (set x | x in s) == (set x | x in t);
        var i :| 0 <= i < |t| && t[i] == last;
        assert s[i] == s[|s| - 1];
      } else {
        assert |set x | x in s| == |set x | x in t| + 1;
        if Distinct(t) {
          forall i, j | 0 <= i < j < |s| ensures s[i] != s[j] {
            if j < |s| - 1 {
              assert s[i] == t[i] && s[j] == t[j];
            } else {
              assert s[i] == t[i];
            }
          }
        } else {
          var i, j :| 0 <= i < j < |t| && t[i] == t[j];
          assert s[i] == s[j];
        }
      }
    }
  }

  /** A request naming a sport twice yields fewer entries than sports requested. */
  lemma DuplicateRequestShrinks(data: map<string, int>, getFails: set<string>, sports: seq<string>,
                                prev: Baseline, prevKeys: seq<string>)
    requires IsKeyOrder(prevKeys, prev)
    requires !Distinct(sports)
    ensures |Response(data, getFails, sports, prev, prevKeys)| < |sports|
  {
    var r := Response(data, getFails, sports, prev, prevKeys);
    ResponseEntries(data, getFails, sports, prev, prevKeys);
    DistinctCard(sports);
    assert r.Keys == set x | x in sports;
  }

  /**
   * A request naming a sport twice never compounds: whatever the baseline
   * and its iteration order, every delta of the tick is its raw value.
   */
  lemma DuplicateRequestNeverCompounds(data: map<string, int>, getFails: set<string>, sports: seq<string>,
                                       prev: Baseline, prevKeys: seq<string>)
    requires IsKeyOrder(prevKeys, prev)
    requires !Distinct(sports)
    ensures var r := Response(data, getFails, sports, prev, prevKeys);
      forall s :: s in r ==> r[s].delta == r[s].raw
  {
    ResponseEntries(data, getFails, sports, prev, prevKeys);
  }

  /**
   * Two consecutive ticks of a subscription of distinct sports, when the
   * second tick iterates the baseline in request order: the second delta is
   * the second raw value minus the first delta, which is the first raw value.
   */
  lemma SecondTickDelta(data1: map<string, int>, data2: map<string, int>, getFails: set<string>,
                        sports: seq<string>, s: string)
    requires Distinct(sports) && s in sports
    ensures var first := Response(data1, getFails, sports, map[], []);
      IsKeyOrder(sports, first) &&
      s in Response(data2, getFails, sports, first, sports) &&
      Response(data2, getFails, sports, first, sports)[s].delta ==
        Cache.ValueOf(data2, getFails, s) - Cache.ValueOf(data1, getFails, s)
  {
    var first := Response(data1, getFails, sports, map[], []);
    ResponseEntries(data1, getFails, sports, map[], []);
    assert |first| > 0 by { assert s in first; }
    ResponseEntries(data2, getFails, sports, first, sports);
  }

  /**
   * A one-sport subscription whose baseline holds just that sport always
   * compounds: a single key has only one iteration order.
   */
  lemma SingleSportAlwaysCompounds(data: map<string, int>, getFails: set<string>, x: string,
                                   prev: Baseline, prevKeys: seq<string>)
    requires IsKeyOrder(prevKeys, prev)
    requires prev.Keys == {x}
    ensures var r := Response(data, getFails, [x], prev, prevKeys);
      x in r && r[x].delta == Cache.ValueOf(data, getFails, x) - prev[x].delta
  {
    assert x in prevKeys;
    DistinctCard(prevKeys);
    assert (set k | k in prevKeys) == {x};
    assert prevKeys == [x] by {
      assert |prevKeys| == 1;
      assert prevKeys[0] == x;
    }
    ResponseEntries(data, getFails, [x], prev, prevKeys);
  }

  /**
   * With two sports the outcome depends on the baseline's iteration order:
   * the same baseline and cache give a compounded delta under one order
   * and the raw value under the other.
   */
  lemma IterationOrderMatters()
    ensures var data := map["soccer" := 12, "football" := 3];
      var prev := map["soccer" := RawToDelta(10, 10), "football" := RawToDelta(3, 3)];
      var sports := ["soccer", "football"];
      IsKeyOrder(["soccer", "football"], prev) && IsKeyOrder(["football", "soccer"], prev) &&
      Response(data, {}, sports, prev, ["soccer", "football"])["soccer"].delta == 2 &&
      Response(data, {}, sports, prev, ["football", "soccer"])["soccer"].delta == 12
  {
    var data := map["soccer" := 12, "football" := 3];
    var prev := map["soccer" := RawToDelta(10, 10), "football" := RawToDelta(3, 3)];
    var sports := ["soccer", "football"];
    assert "soccer" != "football" by { assert "soccer"[0] != "football"[0]; }
    assert |prev| == 2 by { assert prev.Keys == {"soccer", "football"}; }
    ResponseEntries(data, {}, sports, prev, ["soccer", "football"]);
    ResponseEntries(data, {}, sports, prev, ["football", "soccer"]);
  }

  /**
   * One tick's entries: reads every requested sport (a failed read does not
   * stop the loop), compounding against the baseline exactly when it is
   * non-empty and its keys, in the order this call iterated them, equal
   * the request's sport list. The iteration order is returned.
   */
  method BuildResponse(store: Cache.Store, rp: ReqParams, prev: Baseline)
    returns (curr: Baseline, prevKeys: seq<string>)
    ensures IsKeyOrder(prevKeys, prev)
    ensures curr == Response(store.data, store.getFails, rp.sportsToUpdate, prev, prevKeys)
  {
    curr := map[];
    prevKeys := [];
    if |prev| > 0 {
      var rest := prev.Keys;
      while rest != {}
        invariant rest <= prev.Keys
        invariant Distinct(prevKeys)
        invariant forall k :: k in prevKeys <==> k in prev && k !in rest
        decreases rest
      {
        var k :| k in rest;
        prevKeys := prevKeys + [k];
        rest := rest - {k};
      }
    }
    var sports := rp.sportsToUpdate;
    ghost var compounds := Compounds(prev, prevKeys, sports);
    var i := 0;
    while i < |sports|
      invariant 0 <= i <= |sports|
      invariant Fill(store.data, store.getFails, compounds, prev, sports, map[]) ==
                Fill(store.data, store.getFails, compounds, prev, sports[i..], curr)
    {
      var el := sports[i];
      var val, err := store.GetLastValueByKey(el);
      var compounding := false;
      if |prev| > 0 {
        compounding := CompareSlice(prevKeys, sports);
      }
      var res := if compounding then val - PrevDelta(prev, el) else val;
      assert compounding == compounds;
      assert RawToDelta(val, res) == Entry(Cache.ValueOf(store.data, store.getFails, el), compounds, prev, el);
      assert sports[i..][0] == el && sports[i..][1..] == sports[i + 1..];
      curr := curr[el := RawToDelta(val, res)];
      i := i + 1;
    }
  }

  /** The wire payload of a tick: each sport's delta. */
  method Project(data: Baseline) returns (resp: map<string, int>)
    ensures resp.Keys == data.Keys
    ensures forall k :: k in resp ==> resp[k] == data[k].delta
  {
    resp := map[];
    var rest := data.Keys;
    while rest != {}
      invariant rest <= data.Keys
      invariant resp.Keys == data.Keys - rest
      invariant forall k :: k in resp ==> resp[k] == data[k].delta
      decreases rest
    {
      var k :| k in rest;
      resp := resp[k := data[k].delta];
      rest := rest - {k};
    }
  }

  const TwoTo63: int := 0x8000_0000_0000_0000
  const NanosPerSecond: int := 1_000_000_000

  /**
   * The timer period of an interval of `seconds`: the product with one
   * second in nanoseconds, wrapped to a signed 64-bit integer as Go's
   * `time.Duration` arithmetic does. The timer yields no channel unless it
   * is positive.
   */
  function TickNanos(seconds: int): (d: int)
    ensures -TwoTo63 <= d < TwoTo63
  {
    (seconds * NanosPerSecond + TwoTo63) % (2 * TwoTo63) - TwoTo63
  }

  /** Within the range that does not overflow, the period is the exact product, so it is positive exactly for positive intervals. */
  lemma TickNanosWithoutOverflow(seconds: int)
    requires -TwoTo63 <= seconds * NanosPerSecond < TwoTo63
    ensures TickNanos(seconds) == seconds * NanosPerSecond
    ensures TickNanos(seconds) > 0 <==> seconds > 0
  {
  }

  /**
   * The wrap at the edges of the 64-bit range: a failed parse (0) and the
   * smallest 64-bit value never fire, while a large negative interval can
   * wrap to a positive period and fire.
   */
  lemma TickNanosWraps()
    ensures TickNanos(0) == 0
    ensures TickNanos(-TwoTo63) == 0
    ensures TickNanos(-18446744073) == 709551616
  {
  }

  /** One subscription's periodic task: its request, its baseline and what it has sent on the stream. */
  class Subscription {
    const rp: ReqParams
    var prevResp: Baseline
    /** The responses handed to the stream, oldest first; a failed send is only logged. */
    var sent: seq<map<string, int>>

    /** A new subscription starts from an empty baseline. */
    constructor (rp: ReqParams)
      ensures this.rp == rp && prevResp == map[] && sent == []
    {
      this.rp := rp;
      prevResp := map[];
      sent := [];
    }

    /**
     * One tick: compute the entries, send their deltas, and make the
     * entries the baseline of the next tick. The timer fires only when
     * the interval, as a wrapped 64-bit nanosecond duration, is positive.
     */
    method Tick(store: Cache.Store) returns (data: Baseline, prevKeys: seq<string>)
      requires TickNanos(rp.updTime) > 0
      modifies this
      ensures IsKeyOrder(prevKeys, old(prevResp))
      ensures data == Response(store.data, store.getFails, rp.sportsToUpdate, old(prevResp), prevKeys)
      ensures |sent| == |old(sent)| + 1 && sent[..|old(sent)|] == old(sent)
      ensures sent[|old(sent)|].Keys == data.Keys
      ensures forall k :: k in data ==> sent[|old(sent)|][k] == data[k].delta
      ensures prevResp == data
    {
      data, prevKeys := BuildResponse(store, rp, prevResp);
      var respData := Project(data);
      sent := sent + [respData];
      prevResp := data;
    }
  }
}

=== FILE: sports.dfy ===
/**
 * The sport catalog: a closed set of three sports, their wire names
 * (the `fmt.Stringer` implementation), their ordinal (`CalExpr`) and the
 * parser from a name back to a sport (`NewSport`).
 */
module Sports {
  import opened Wrappers

  /** Declaration order follows the underlying integers 0, 1, 2. */
  datatype Sport = Soccer | Football | Baseball

  /** The catalog in declaration order. */
  const Catalog: seq<Sport> := [Soccer, Football, Baseball]

  /** The name of a sport, used as cache key and as the feed's path segment. */
  function Name(s: Sport): (r: string)
    ensures |r| > 0 && '/' !in r
  {
    match s
    case Soccer => "soccer"
    case Football => "football"
    case Baseball => "baseball"
  }

  /** The ordinal of a sport: its position in the catalog. */
  function CalExpr(s: Sport): (r: int)
    ensures 0 <= r < |Catalog| && Catalog[r] == s
  {
    match s
    case Soccer => 0
    case Football => 1
    case Baseball => 2
  }

  /** Parses a name; any string that is not exactly one of the names yields None. */
  function NewSport(str: string): (r: Option<Sport>)
    ensures r.Some? ==> Name(r.value) == str
    ensures r.None? ==> forall s: Sport :: Name(s) != str
  {
    if str == "soccer" then Some(Soccer)
    else if str == "football" then Some(Football)
    else if str == "baseball" then Some(Baseball)
    else None
  }

  /** No two sports share a name. */
  lemma NameInjective(s: Sport, t: Sport)
    requires Name(s) == Name(t)
    ensures s == t
  {
  }

  /** Parsing the name of a sport gives the sport back. */
  lemma NameRoundTrip(s: Sport)
    ensures NewSport(Name(s)) == Some(s)
  {
  }

  /** Parsing is the exact inverse of naming: it succeeds on the names and nothing else. */
  lemma NewSportInverse(str: string, s: Sport)
    ensures NewSport(str) == Some(s) <==> Name(s) == str
  {
    if Name(s) == str {
      NameRoundTrip(s);
    }
  }

  /** Distinct sports have distinct ordinals. */
  lemma CalExprInjective(s: Sport, t: Sport)
    requires CalExpr(s) == CalExpr(t)
    ensures s == t
  {
  }
}

=== FILE: workers.dfy ===
/**
 * The ingestion side: one feed worker per configured sport, and the drain
 * loop that writes every merged rate into the cache. The polling
 * goroutines, the fan-in merge and the HTTP fetches are not modelled; the
 * merged channel is a finite sequence of arrivals, each carrying whether
 * the stop signal was ready when it was received.
 */
module Workers {
  import opened Wrappers
  import opened Sports
  import Cache

  /** The parts of the process configuration the workers read. */
  datatype Config = Config(
    lineProviderUrl: string,
    updateIntervalSoccer: int,
    updateIntervalFootball: int,
    updateIntervalBaseball: int)

  /** One feed poller: the URL it fetches and its interval in seconds. */
  datatype Worker = Worker(url: string, updTime: int)

  /** One decoded feed sample. */
  datatype Rate = Rate(rateType: Sport, rateValue: int)

  /** A rate taken from the merged channel, and whether the stop signal was ready at that moment. */
  datatype Arrival = Arrival(rate: Rate, doneSignalled: bool)

  /** The error `RunWorkers` returns when a cache write fails. */
  datatype SetError = SetError(key: string)

  /** The configured polling interval of a sport. */
  function IntervalFor(cfg: Config, s: Sport): (interval: int)
  {
    match s
    case Soccer => cfg.updateIntervalSoccer
    case Football => cfg.updateIntervalFootball
    case Baseball => cfg.updateIntervalBaseball
  }

  /** The worker configured for one sport. */
  function WorkerFor(cfg: Config, s: Sport): (w: Worker)
  {
    Worker(cfg.lineProviderUrl + "/" + Name(s), IntervalFor(cfg, s))
  }

  /**
   * A worker's URL is the provider URL, a slash, and a path segment that
   * parses back to the worker's sport.
   */
  lemma WorkerUrlNamesSport(cfg: Config, s: Sport)
    ensures var u, n := WorkerFor(cfg, s).url, |cfg.lineProviderUrl|;
      n < |u| && u[..n] == cfg.lineProviderUrl && u[n] == '/' &&
      NewSport(u[n + 1..]) == Some(s)
  {
    var u, n := WorkerFor(cfg, s).url, |cfg.lineProviderUrl|;
    assert u[n + 1..] == Name(s);
    NameRoundTrip(s);
  }

  /** Different sports are polled at different URLs. */
  lemma DistinctSportsDistinctUrls(cfg: Config, s: Sport, t: Sport)
    requires s != t
    ensures WorkerFor(cfg, s).url != WorkerFor(cfg, t).url
  {
    WorkerUrlNamesSport(cfg, s);
    WorkerUrlNamesSport(cfg, t);
  }

  /** A worker's interval is the configuration field at its sport's ordinal. */
  lemma WorkerIntervalIsConfigured(cfg: Config, s: Sport)
    ensures WorkerFor(cfg, s).updTime ==
      [cfg.updateIntervalSoccer, cfg.updateIntervalFootball, cfg.updateIntervalBaseball][CalExpr(s)]
  {
  }

  /** Builds the worker list: one worker per requested sport, in order. */
  method BuildWorkers(cfg: Config, sports: seq<Sport>) returns (ws: seq<Worker>)
    ensures |ws| == |sports|
    ensures forall i :: 0 <= i < |sports| ==>
      ws[i].url == cfg.lineProviderUrl + "/" + Name(sports[i]) &&
      ws[i].updTime == IntervalFor(cfg, sports[i])
  {
    ws := [];
    for i := 0 to |sports|
      invariant |ws| == i
      invariant forall j :: 0 <= j < i ==> ws[j] == WorkerFor(cfg, sports[j])
    {
      var el := sports[i];
      var updTime := IntervalFor(cfg, el);
      var url := cfg.lineProviderUrl + "/" + Name(el);
      ws := ws + [Worker(url, updTime)];
    }
  }

  /** The cache key a rate is written under. */
  function Key(a: Arrival): (key: string)
  {
    Name(a.rate.rateType)
  }

  /** Whether the drain loop ends at this arrival instead of writing it successfully. */
  predicate Stops(a: Arrival, setFails: set<string>)
  {
    a.doneSignalled || Key(a) in setFails
  }

  /** The cache after writing every given rate in order. */
  function Replay(cache: map<string, int>, rates: seq<Arrival>): (cache': map<string, int>)
    decreases |rates|
  {
    if rates == [] then cache
    else Replay(cache[Key(rates[0]) := rates[0].rate.rateValue], rates[1..])
  }

  /** What a drain produces: the final cache, the number of successful writes and the returned error. */
  datatype Drained = Drained(cache: map<string, int>, written: nat, err: Option<SetError>)

  /** The drain loop, one arrival at a time. */
  function Drain(cache: map<string, int>, setFails: set<string>, arrivals: seq<Arrival>): (d: Drained)
    decreases |arrivals|
  {
    if arrivals == [] then Drained(cache, 0, None)
    else if arrivals[0].doneSignalled then Drained(cache, 0, None)
    else if Key(arrivals[0]) in setFails then Drained(cache, 0, Some(SetError(Key(arrivals[0]))))
    else
      var rest := Drain(cache[Key(arrivals[0]) := arrivals[0].rate.rateValue], setFails, arrivals[1..]);
      Drained(rest.cache, rest.written + 1, rest.err)
  }

  /**
   * The drain writes exactly the longest prefix of arrivals that neither
   * sees the stop signal nor fails; it reports an error exactly when it
   * ended at a failing write, naming that write's key.
   */
  lemma {:induction false} DrainCharacterised(cache: map<string, int>, setFails: set<string>, arrivals: seq<Arrival>)
    ensures var d := Drain(cache, setFails, arrivals);
      d.written <= |arrivals| &&
      (forall i :: 0 <= i < d.written ==> !Stops(arrivals[i], setFails)) &&
      (d.written < |arrivals| ==> Stops(arrivals[d.written], setFails)) &&
      d.cache == Replay(cache, arrivals[..d.written]) &&
      (d.err.Some? <==> d.written < |arrivals| && !arrivals[d.written].doneSignalled) &&
      (d.err.Some? ==> d.err.value == SetError(Key(arrivals[d.written])))
    decreases |arrivals|
  {
    if arrivals != [] && !Stops(arrivals[0], setFails) {
      var a := arrivals[0];
      var c' := cache[Key(a) := a.rate.rateValue];
      var tail := arrivals[1..];
      DrainCharacterised(c', setFails, tail);
      var d := Drain(c', setFails, tail);
      assert arrivals[..d.written + 1][1..] == tail[..d.written];
      forall i | 0 <= i < d.written + 1
        ensures !Stops(arrivals[i], setFails)
      {
        if i > 0 {
          assert arrivals[i] == tail[i - 1];
        }
      }
    }
  }

  /** A key no given rate writes keeps its value (or stays absent). */
  lemma {:induction false} ReplayUntouched(cache: map<string, int>, rates: seq<Arrival>, k: string)
    requires forall i :: 0 <= i < |rates| ==> Key(rates[i]) != k
    ensures k in Replay(cache, rates) <==> k in cache
    ensures k in cache ==> Replay(cache, rates)[k] == cache[k]
    decreases |rates|
  {
    if rates != [] {
      var c' := cache[Key(rates[0]) := rates[0].rate.rateValue];
      assert Key(rates[0]) != k;
      forall i | 0 <= i < |rates[1..]| ensures Key(rates[1..][i]) != k {
        assert rates[1..][i] == rates[i + 1];
      }
      ReplayUntouched(c', rates[1..], k);
    }
  }

  /** Last write wins: a key ends with the value of the last rate written under it. */
  lemma {:induction false} ReplayLastWriteWins(cache: map<string, int>, rates: seq<Arrival>, j: nat)
    requires j < |rates|
    requires forall i :: j < i < |rates| ==> Key(rates[i]) != Key(rates[j])
    ensures Key(rates[j]) in Replay(cache, rates)
    ensures Replay(cache, rates)[Key(rates[j])] == rates[j].rate.rateValue
    decreases |rates|
  {
    var c' := cache[Key(rates[0]) := rates[0].rate.rateValue];
    var tail := rates[1..];
    if j == 0 {
      forall i | 0 <= i < |tail| ensures Key(tail[i]) != Key(rates[0]) {
        assert tail[i] == rates[i + 1];
      }
      ReplayUntouched(c', tail, Key(rates[0]));
    } else {
      assert tail[j - 1] == rates[j];
      forall i | j - 1 < i < |tail| ensures Key(tail[i]) != Key(tail[j - 1]) {
        assert tail[i] == rates[i + 1];
      }
      ReplayLastWriteWins(c', tail, j - 1);
    }
  }

  /**
   * With no stop signal and no failing write, every rate is written, the
   * call returns no error, and the key of rate `j` ends with rate `j`'s
   * value when no later rate has that key.
   */
  lemma DrainWithoutStopsLastWriteWins(cache: map<string, int>, setFails: set<string>, arrivals: seq<Arrival>, j: nat)
    requires forall i :: 0 <= i < |arrivals| ==> !Stops(arrivals[i], setFails)
    requires j < |arrivals|
    requires forall i :: j < i < |arrivals| ==> Key(arrivals[i]) != Key(arrivals[j])
    ensures var d := Drain(cache, setFails, arrivals);
      d.written == |arrivals| && d.err == None &&
      Key(arrivals[j]) in d.cache && d.cache[Key(arrivals[j])] == arrivals[j].rate.rateValue
  {
    DrainCharacterised(cache, setFails, arrivals);
    assert arrivals[..|arrivals|] == arrivals;
    ReplayLastWriteWins(cache, arrivals, j);
  }

  /** With no stop signal and no failing write, a key that no rate names is left as it was. */
  lemma DrainWithoutStopsUntouched(cache: map<string, int>, setFails: set<string>, arrivals: seq<Arrival>, k: string)
    requires forall i :: 0 <= i < |arrivals| ==> !Stops(arrivals[i], setFails)
    requires forall i :: 0 <= i < |arrivals| ==> Key(arrivals[i]) != k
    ensures var d := Drain(cache, setFails, arrivals);
      (k in d.cache <==> k in cache) && (k in cache ==> d.cache[k] == cache[k])
  {
    DrainCharacterised(cache, setFails, arrivals);
    assert arrivals[..|arrivals|] == arrivals;
    ReplayUntouched(cache, arrivals, k);
  }

  /**
   * If the stop signal is ready at arrival `j` and nothing stopped the
   * loop before, the drain returns no error, writes the `j` earlier rates
   * and does not write arrival `j`.
   */
  lemma DrainStopsOnDone(cache: map<string, int>, setFails: set<string>, arrivals: seq<Arrival>, j: nat)
    requires j < |arrivals| && arrivals[j].doneSignalled
    requires forall i :: 0 <= i < j ==> !Stops(arrivals[i], setFails)
    ensures var d := Drain(cache, setFails, arrivals);
      d.err == None && d.written == j && d.cache == Replay(cache, arrivals[..j])
  {
    DrainCharacterised(cache, setFails, arrivals);
  }

  /**
   * The first failing write ends the drain with that key's error; the
   * count of successful writes is the number of rates before it and no
   * later rate is written.
   */
  lemma DrainStopsOnFailure(cache: map<string, int>, setFails: set<string>, arrivals: seq<Arrival>, j: nat)
    requires j < |arrivals| && !arrivals[j].doneSignalled && Key(arrivals[j]) in setFails
    requires forall i :: 0 <= i < j ==> !Stops(arrivals[i], setFails)
    ensures var d := Drain(cache, setFails, arrivals);
      d.err == Some(SetError(Key(arrivals[j]))) && d.written == j &&
      d.cache == Replay(cache, arrivals[..j])
  {
    DrainCharacterised(cache, setFails, arrivals);
  }

  /** The ingestion pipeline: its workers, the cache it fills and the count of successful writes. */
  class BackgroundWorkers {
    var workers: seq<Worker>
    const cache: Cache.Store
    var cntr: int

    /** One worker per given sport, in order; nothing written yet. */
    constructor New(cfg: Config, cache: Cache.Store, sports: seq<Sport>)
      ensures |workers| == |sports|
      ensures forall i :: 0 <= i < |sports| ==> workers[i] == WorkerFor(cfg, sports[i])
      ensures this.cache == cache && cntr == 0
    {
      var ws := BuildWorkers(cfg, sports);
      workers := ws;
      this.cache := cache;
      cntr := 0;
    }

    /**
     * Drains the merged rates into the cache: stops without error when the
     * stop signal is ready, stops with an error at the first failing write,
     * and counts every successful write.
     */
    method RunWorkers(arrivals: seq<Arrival>) returns (err: Option<SetError>)
      modifies this, cache
      ensures var d := Drain(old(cache.data), cache.setFails, arrivals);
        cache.data == d.cache && cntr == old(cntr) + d.written && err == d.err
      ensures workers == old(workers)
    {
      var i := 0;
      while i < |arrivals|
        invariant 0 <= i <= |arrivals|
        invariant workers == old(workers)
        invariant cntr == old(cntr) + i
        invariant var d := Drain(cache.data, cache.setFails, arrivals[i..]);
          Drain(old(cache.data), cache.setFails, arrivals) == Drained(d.cache, d.written + i, d.err)
      {
        var n := arrivals[i];
        assert arrivals[i..][1..] == arrivals[i + 1..];
        if n.doneSignalled {
          return None;
        }
        var failed := cache.Set(Name(n.rate.rateType), n.rate.rateValue);
        if failed {
          return Some(SetError(Name(n.rate.rateType)));
        }
        cntr := cntr + 1;
        i := i + 1;
      }
      return None;
    }
  }
}

=== FILE: wrappers.dfy ===
/** Optional values, used where the source returns a nil interface. */
module Wrappers {
  datatype Option<+T> = None | Some(value: T)
}
